=== FILE: README.md ===
# Route finder: selection and route-presentation state machine

This project models the core of a route-finding web client. A user picks a
start and a goal, either by clicking the map or by typing an address and
choosing a geocoder suggestion. The client then asks a routing service for a
main route plus alternatives. It drops every alternative whose geometry is
identical to the main route, and shows either the main route or the
alternatives with their statistics.

The client keeps thirteen separate state fields. The model puts them in one
immutable `RouteFinder.State`. Every user action and every network outcome is
an `Event`, and `RouteFinder.Step` is the pure transition that handles it. A
transition returns the next state and the network request it issues, if any.
The replies to those requests come back as later events. Nothing waits on the
network inside the model.

Modules:

- `Geo`: coordinates, routes, route statistics, details and endpoints. Numbers
  are exact reals and are only compared for equality.
- `Routes`: exact route equality (`RoutesEqual`) and the filter that removes
  secondary routes equal to the main route (`Dedupe`).
- `Utf16`: the JavaScript `length` of the typed text, counted in UTF-16 code
  units. The suggestion search is gated on this length.
- `MapView`: which endpoint a map click assigns, the `center` prop, the colour
  palette, and which polylines, markers and details cards are drawn for
  given props.
- `RouteFinder`: the state, the events, one transition function per handler,
  `Step`, `Run`, and the properties that relate several transitions.
- `Scenarios`: worked examples on concrete inputs.

Behaviours of the client worth knowing:

- A failed route request whose response has no `error` field sets the error
  to that missing value, so no message is shown. The connectivity message is
  used only when there is no response at all. See `RouteFinder.RejectRoute`.
- Suggestion replies are not tagged with a request number. Whichever reply
  arrives is applied to its endpoint's list, so a late reply can overwrite a
  newer list.
- The limit of five suggestions is only a parameter sent to the geocoder. The
  client stores whatever list comes back.
- The view flag survives a failed request and is not reset by a successful
  one. The main route is therefore the default view only until the user first
  toggles it.

## Model

| member | source | states |
|---|---|---|
| Routes.RoutesEqualFrom | src/App.js:83-86 | The comparison loop from index i on returns true exactly when every later index has equal first and equal second components. |
| Routes.RoutesEqual | src/App.js:81-87 | Routes of different lengths are never equal; otherwise they are equal iff every index has equal first and second components. |
| Routes.RoutesEqualIsIdentity | src/App.js:81-87 | Route equality is exactly equality of the point sequences (no tolerance), hence reflexive and symmetric. |
| Routes.Dedupe | src/App.js:42-44 | The filtered list is no longer than the input, none of its routes equals the main route, it only contains input routes, and it contains every input route that differs from the main route. |
| Routes.DedupeDistributes | src/App.js:42-44 | Filtering a concatenation gives the concatenation of the filtered parts, so the survivors keep their original relative order. |
| Routes.DedupeCounts | src/App.js:42-44 | Each route that differs from the main route keeps all its occurrences, and each route equal to it keeps none. |
| Routes.DedupeKeepsDistinct | src/App.js:42-44 | A list with no route equal to the main route passes through unchanged. |
| Routes.DedupeIdempotent | src/App.js:42-44 | Filtering twice gives the same list as filtering once. |
| Utf16.Length | src/App.js:93 | The JavaScript length of a string is between its character count and twice that, and it is zero only for the empty string. |
| Utf16.LengthAdds | src/App.js:93 | The JavaScript length of a concatenation is the sum of the parts' lengths, and a single character counts two units exactly when it lies outside the Basic Multilingual Plane. |
| Utf16.LengthOfBmpText | src/App.js:93 | For text without astral characters, the JavaScript length equals the character count. |
| MapView.ClickTarget | src/MapView.js:24-30 | A click targets the start while it is unset, never targets a set endpoint, and targets nothing exactly when both endpoints are set. |
| MapView.SecondaryColor | src/MapView.js:52 | Every secondary route's colour comes from the four-colour palette. |
| MapView.SecondaryColorsCycle | src/MapView.js:35 | Two secondary routes get the same colour iff their positions are equal modulo 4. |
| MapView.MainPolyline | src/MapView.js:44-46 | The blue main polyline is drawn iff the main view is on and the main route is non-empty, and it follows the main route. |
| MapView.SecondaryPolylines | src/MapView.js:47-56 | Nothing is drawn in the main view. In the secondary view there is one polyline per secondary route, in order, coloured by position and never blue. |
| MapView.Center | src/MapView.js:20 | The `center` prop is the main route's first point when that route is non-empty, and otherwise the default (19.99, -99.61); it is never any other point. |
| MapView.Markers | src/MapView.js:57-58 | One marker per endpoint that is set (two when start and goal coincide), the start's first and the goal's last, and none anywhere else. |
| MapView.DetailsCards | src/MapView.js:61-82 | Without details the panel is empty. With details, the main view shows the main statistics card and the secondary view shows one numbered, coloured card per secondary route. |
| MapView.ViewsAreExclusive | src/MapView.js:44-82 | The main polyline and the secondary polylines are never drawn together, and main cards appear exactly in the main view. |
| RouteFinder.DisplayedError | src/App.js:195 | The form shows the error exactly when one is set and it is not the empty string, and then it shows that text. |
| RouteFinder.Props | src/App.js:198-207 | The map view receives the page's coordinates, main and secondary routes, details and view flag unchanged. |
| RouteFinder.ToggleButton | src/App.js:190-194 | The view toggle is offered iff the main route is non-empty. Its label offers the main route ("Mostrar Ruta Principal") exactly when the secondary view is on, and offers the secondary routes ("Mostrar Rutas Secundarias") in the main view. |
| RouteFinder.Click | src/MapView.js:22-31 | A click never overwrites a set coordinate and changes only coordinates. With no start it sets the start and asks for its address. With a start but no goal it sets the goal and asks for its address. With both set it changes nothing and asks for nothing. |
| RouteFinder.EditQuery | src/App.js:89-110 | Typing always sets that endpoint's query. Text of length 2 or less empties only that endpoint's suggestions and issues no search. Longer text issues a search and keeps the list. The coordinate, the other endpoint and the route data are untouched. |
| RouteFinder.AcceptSuggestions | src/App.js:103 | A suggestion reply replaces that endpoint's list and changes nothing else. |
| RouteFinder.PickSuggestion | src/App.js:112-117 | Picking sets that endpoint's coordinate and query from the suggestion and empties both lists. The other endpoint's coordinate and query and the route data are untouched, and no reverse lookup is issued. |
| RouteFinder.AcceptAddress | src/App.js:128 | A reverse-lookup reply sets only that endpoint's query. |
| RouteFinder.SetAvoidTolls | src/App.js:181 | The toll checkbox sets the avoid-tolls option to its checked value, changes no other field and issues no request. |
| RouteFinder.SetOptimizeFuel | src/App.js:185 | The fuel checkbox sets the optimize-fuel option to its checked value, changes no other field and issues no request. |
| RouteFinder.Submit | src/App.js:22-39 | With an endpoint unset, it sets the validation message, issues no request and leaves coordinates, queries, routes, details, options and the view flag unchanged. With both set, it issues a request carrying both coordinates and the current options, and the state is unchanged. |
| RouteFinder.AcceptRoute | src/App.js:41-52 | A successful reply replaces the main route. The secondary routes are the reply's alternatives filtered by the dedupe filter, so an alternative is kept iff it differs from the main route, survivors keep their original order and multiplicity, and no kept route equals the main route. The details hold the reply's main result and the same filtered list. The error is cleared, and the selection, options and view flag are untouched. |
| RouteFinder.RejectRoute | src/App.js:53-58 | A failure empties main, secondary and details and hides the toggle. The error becomes the server's error field when a response exists, otherwise the connectivity message. A message is shown iff there was no response or the field is non-empty. |
| RouteFinder.Reset | src/App.js:61-75 | Reset sets every field to its initial value: coordinates unset, empty queries, suggestions and routes, no details, no error, both options false, main view. |
| RouteFinder.Toggle | src/App.js:77-79 | The toggle flips the view flag and changes no other field. |
| RouteFinder.Step | src/App.js:22-142 | Every transition preserves the route invariant. Failed lookups change nothing. Selection events never touch route data, options or the error. Option events touch nothing but the options and issue no request. Only a submit with both endpoints set issues a route request. |
| RouteFinder.Run | src/App.js:41-58 | Any sequence of events preserves the route invariant: no secondary route equals the main route, the details mirror the route fields, and without details there are no routes. |
| RouteFinder.Enabled | src/App.js:157-194 | The page can deliver a view toggle exactly while the main route is non-empty, a suggestion pick exactly for a suggestion listed under that endpoint, and a checkbox change exactly when it reports the opposite of the current flag, since both checkboxes are controlled; every other event is always possible. |
| RouteFinder.ReachableStatesAreConsistent | src/App.js:7-20 | Every state reachable from the initial state satisfies the route invariant. |
| RouteFinder.ResetRestoresInit | src/App.js:61-75 | Reset yields the initial state from any state, so it is idempotent, and the next click sets the start. |
| RouteFinder.ToggleIsInvolution | src/App.js:77-79 | Toggling twice gives back the original state. |
| RouteFinder.ClicksOnCompletePair | src/MapView.js:24-30 | Once both endpoints are set, any number of clicks leaves the state unchanged. |
| RouteFinder.ClicksAfterReset | src/MapView.js:24-30 | After a reset, two or more clicks set the start to the first clicked point and the goal to the second. |
| RouteFinder.NoPickAfterPick | src/App.js:112-117 | After a pick, no suggestion of either endpoint can be picked until new suggestions arrive. |
| RouteFinder.DrawnSecondariesDifferFromMain | src/MapView.js:47-56 | In a consistent state, no drawn secondary polyline is route-equal to the main route. |
| RouteFinder.CenterFollowsRouteState | src/MapView.js:20 | After a successful reply with a non-empty main route, the `center` prop the map view computes is that route's first point. After a failure or a reset it is the default (19.99, -99.61). |
| Scenarios.DedupeSmallCases | src/App.js:42-44 | A distinct single candidate is kept, an identical one is dropped, and an empty list stays empty. |
| Scenarios.SubmitWithoutGoal | src/App.js:24-27 | Submitting with only the start set issues no request and sets the validation message. |
| Scenarios.TwoCharacterQuery | src/App.js:107-108 | A query of two Basic Multilingual Plane characters (JavaScript length 2) empties that endpoint's suggestions and issues no search. |
| Scenarios.TwoAstralCharacterQuery | src/App.js:93-102 | Two characters outside the Basic Multilingual Plane have JavaScript length 4, so typing them issues a search. |
| Scenarios.EndToEndRoute | src/App.js:41-52 | For two clicked points and a reply whose first alternative repeats the main route, the request carries both points with options off. Only the second alternative survives, and the main polyline is the one drawn. |
| Scenarios.ServerErrorShown | src/App.js:57 | A rejection with the server message "No se encontró una ruta" shows exactly that message and leaves no route data. |

## Left out

- The HTTP calls to the routing backend and to the geocoder's search and reverse endpoints. A transition returns a `Request` value instead, and each reply is an input event: a success payload, or a failure with an optional server response.
- Timing and ordering of asynchronous replies. Any reply event may arrive in any state and is applied as it comes, matching the code's lack of request tagging or cancellation. Updates after component teardown are not modelled.
- Parsing of the suggestion's latitude and longitude strings. A `Suggestion` carries its coordinate already parsed.
- Two-decimal formatting of route statistics. The statistics are carried as opaque values.
- Floating-point coordinates. Numbers are exact reals, so NaN (which is unequal to itself under `!==`) and signed zeros are not represented, and route equality is reflexive here.
- Malformed routing replies. The events carry well-formed payloads only, and these client behaviours are not modelled:
  - A success reply missing `main_route` or `secondary_routes`, with a secondary entry lacking `route`, or with a `main_route` lacking `route` while `secondary_routes` is non-empty, throws inside the same `try` and is handled like a failure without a response. It corresponds to the event `RouteFailed(None)`.
  - A success reply whose `main_route` lacks `route` while `secondary_routes` is empty does not throw. The main route becomes `undefined` and the page crashes when it next reads `mainRoute.length`.
  - An error response whose `data` is `null` throws inside the `catch` after the routes were cleared, so the previous error stays. `RouteFailed(Some(ErrorResponse(None)))` instead sets the error to none.
- Map centring. `MapContainer` uses the `center` prop only when the map is first created, while the main route is still empty. The map therefore opens at the default centre and does not move when a route arrives. The model states only the value of the prop.
- A reverse-lookup reply without `display_name`. The event always carries a string.
- Leaflet rendering, icon setup, tile layer, zoom, the markup and headings of the page, styling, logging of lookup errors, and `preventDefault`. The map view is modelled only as the lists of polylines, markers and details cards it would draw.

=== FILE: geo.dfy ===
/** Values shared by the route finder and its map view: coordinates, route
    geometry, the statistics the routing service attaches to each route, and
    the two endpoints of a route request. */
module Geo {

  /** A JavaScript number as the client handles it. Coordinates are only ever
      compared with exact equality and statistics are only carried along, so an
      exact real stands in for the double. */
  type Num = real

  /** A `[latitude, longitude]` pair. */
  type Point = (Num, Num)

  /** An ordered route geometry, from the start towards the goal. */
  type Route = seq<Point>

  /** A value that may be unset (`null` or `undefined` in the client). */
  datatype Option<T> = None | Some(value: T)

  /** Statistics the routing service reports for one route; the client never
      computes with them, it only shows them. */
  datatype RouteStats = RouteStats(
    totalDistanceKm: Num,
    totalTimeMin: Num,
    averageSpeedKmh: Num,
    fuelCostPesos: Num)

  /** One route of a routing reply: its geometry plus its statistics. */
  datatype RouteResult = RouteResult(route: Route, stats: RouteStats)

  /** The details object kept after a successful request: the main route's
      result and the secondary results that survived deduplication. */
  datatype RouteDetails = RouteDetails(main: RouteResult, secondary: seq<RouteResult>)

  /** The two roles a location can play in a route request. */
  datatype Endpoint = Start | Goal {
    function Other(): Endpoint {
      if Start? then Goal else Start
    }
  }
}

=== FILE: map_view.dfy ===
/** The map component: which endpoint a click assigns, the `center` prop, and
    what is drawn for the current props (polylines, markers, details cards). */
module MapView {
  import opened Geo

  /** Centre used while no main route is loaded. */
  const DefaultCenter: Point := (19.99, -99.61)

  const MainRouteColor: string := "blue"

  /** Palette the secondary routes cycle through, by position. */
  const SecondaryRouteColors: seq<string> := ["green", "purple", "orange", "red"]

  /** The props the route finder passes to the map view. */
  datatype MapProps = MapProps(
    startCoord: Option<Point>,
    goalCoord: Option<Point>,
    mainRoute: Route,
    secondaryRoutes: seq<RouteResult>,
    routeDetails: Option<RouteDetails>,
    showSecondaryRoutes: bool)

  datatype Polyline = Polyline(positions: Route, color: string)

  /** A card of the details panel; secondary cards are numbered from 1. */
  datatype DetailsCard =
    | MainCard(stats: RouteStats)
    | SecondaryCard(number: nat, color: string, stats: RouteStats)

  /** The endpoint a map click assigns: the start while it is unset, then the
      goal while it is unset, then none. */
  function ClickTarget(start: Option<Point>, goal: Option<Point>): (target: Option<Endpoint>)
    ensures start.None? ==> target == Some(Start)
    ensures target == Some(Start) ==> start.None?
    ensures target == Some(Goal) ==> start.Some? && goal.None?
    ensures target.None? <==> start.Some? && goal.Some?
  {
    if start.None? then Some(Start)
    else if goal.None? then Some(Goal)
    else None
  }

  /** The `center` prop the map view computes: the first point of the main
      route, if any. */
  function Center(mainRoute: Route): (c: Point)
    ensures c == DefaultCenter || c in mainRoute
    ensures |mainRoute| > 0 ==> c == mainRoute[0]
  {
    if |mainRoute| > 0 then mainRoute[0] else DefaultCenter
  }

  /** Colour of the secondary route at position `index`. */
  function SecondaryColor(index: nat): (color: string)
    ensures color in SecondaryRouteColors
  {
    SecondaryRouteColors[index % |SecondaryRouteColors|]
  }

  /** Two secondary routes share a colour exactly when their positions agree
      modulo the palette size, so up to four consecutive routes are always
      told apart. */
  lemma SecondaryColorsCycle(i: nat, j: nat)
    ensures SecondaryColor(i) == SecondaryColor(j) <==> i % 4 == j % 4
  {
  }

  /** The blue main polyline, drawn only in the main view and only for a
      non-empty main route. */
  function MainPolyline(p: MapProps): (line: Option<Polyline>)
    ensures line.Some? <==> !p.showSecondaryRoutes && |p.mainRoute| > 0
    ensures line.Some? ==> line.value.positions == p.mainRoute && line.value.color == MainRouteColor
  {
    if !p.showSecondaryRoutes && |p.mainRoute| > 0 then Some(Polyline(p.mainRoute, MainRouteColor))
    else None
  }

  /** One polyline per secondary route, in order and coloured by position,
      drawn only in the secondary view. */
  function SecondaryPolylines(p: MapProps): (lines: seq<Polyline>)
    ensures !p.showSecondaryRoutes ==> lines == []
    ensures p.showSecondaryRoutes ==> |lines| == |p.secondaryRoutes|
    ensures forall i :: 0 <= i < |lines| ==>
              lines[i].positions == p.secondaryRoutes[i].route
              && lines[i].color == SecondaryColor(i)
              && lines[i].color != MainRouteColor
  {
    if p.showSecondaryRoutes then
      seq(|p.secondaryRoutes|, i requires 0 <= i < |p.secondaryRoutes| =>
        Polyline(p.secondaryRoutes[i].route, SecondaryColor(i)))
    else []
  }

  /** A marker for each endpoint that is set, start first. */
  function Markers(p: MapProps): (markers: seq<Point>)
    ensures |markers| == (if p.startCoord.Some? then 1 else 0) + (if p.goalCoord.Some? then 1 else 0)
    ensures p.startCoord.Some? ==> markers[0] == p.startCoord.value
    ensures p.goalCoord.Some? ==> markers[|markers| - 1] == p.goalCoord.value
    ensures p.startCoord.Some? ==> p.startCoord.value in markers
    ensures p.goalCoord.Some? ==> p.goalCoord.value in markers
    ensures forall m :: m in markers ==> Some(m) == p.startCoord || Some(m) == p.goalCoord
  {
    (if p.startCoord.Some? then [p.startCoord.value] else [])
    + (if p.goalCoord.Some? then [p.goalCoord.value] else [])
  }

  /** The details panel: the main route's statistics in the main view, or one
      numbered, coloured card per secondary route in the secondary view. */
  function DetailsCards(p: MapProps): (cards: seq<DetailsCard>)
    ensures p.routeDetails.None? ==> cards == []
    ensures !p.showSecondaryRoutes && p.routeDetails.Some? ==>
              cards == [MainCard(p.routeDetails.value.main.stats)]
    ensures p.showSecondaryRoutes && p.routeDetails.Some? ==>
              |cards| == |p.routeDetails.value.secondary|
              && forall i :: 0 <= i < |cards| ==>
                   cards[i] == SecondaryCard(i + 1, SecondaryColor(i), p.routeDetails.value.secondary[i].stats)
  {
    match p.routeDetails
    case None => []
    case Some(details) =>
      if !p.showSecondaryRoutes then [MainCard(details.main.stats)]
      else seq(|details.secondary|, i requires 0 <= i < |details.secondary| =>
             SecondaryCard(i + 1, SecondaryColor(i), details.secondary[i].stats))
  }

  /** The two views never mix: while the main polyline or main card is shown
      no secondary polyline or card is, and the other way round. */
  lemma ViewsAreExclusive(p: MapProps)
    ensures MainPolyline(p).Some? ==> SecondaryPolylines(p) == []
    ensures |SecondaryPolylines(p)| > 0 ==> MainPolyline(p).None?
    ensures forall c :: c in DetailsCards(p) ==> (c.MainCard? <==> !p.showSecondaryRoutes)
  {
  }
}

=== FILE: route_finder.dfy ===
/** The route finder's selection and route-presentation state machine.

    The component keeps its state in thirteen independent fields; here they
    form one immutable `State`, and every user action or network outcome is an
    `Event` handled by the pure transition `Step`. A transition may issue one
    network request, returned alongside the new state; the replies come back
    later as events of their own. */
module RouteFinder {
  import opened Geo
  import opened Routes
  import Utf16
  import MapView

  /** Shown when the form is submitted without both endpoints. */
  const ValidationMessage: string := "Por favor selecciona tanto el inicio como el destino en el mapa."

  /** Shown when a route request fails without any server response. */
  const ConnectivityMessage: string := "Error conectando con la API"

  /** Queries this long or shorter (in UTF-16 code units) are never searched. */
  const SearchGate: nat := 2

  const ShowMainLabel: string := "Mostrar Ruta Principal"
  const ShowSecondaryLabel: string := "Mostrar Rutas Secundarias"

  /** A forward-geocoding candidate, its coordinate already parsed. */
  datatype Suggestion = Suggestion(placeId: int, at: Point, displayName: string)

  datatype State = State(
    startCoord: Option<Point>,
    goalCoord: Option<Point>,
    avoidTolls: bool,
    optimizeFuel: bool,
    mainRoute: Route,
    secondaryRoutes: seq<RouteResult>,
    error: Option<string>,
    routeDetails: Option<RouteDetails>,
    showSecondaryRoutes: bool,
    startQuery: string,
    goalQuery: string,
    startSuggestions: seq<Suggestion>,
    goalSuggestions: seq<Suggestion>)

  /** The state the component is created in. */
  const Init: State := State(None, None, false, false, [], [], None, None, false, "", "", [], [])

  /** A successful routing reply. */
  datatype RouteReply = RouteReply(mainRoute: RouteResult, secondaryRoutes: seq<RouteResult>)

  /** The body of a failed routing request when the server answered; its
      `error` field may be missing. */
  datatype ErrorResponse = ErrorResponse(error: Option<string>)

  /** Network requests a transition may issue. */
  datatype Request =
    | RouteQuery(start: Point, goal: Point, avoidTolls: bool, optimizeFuel: bool)
    | Search(endpoint: Endpoint, text: string)
    | ReverseLookup(endpoint: Endpoint, at: Point)

  datatype Event =
    | MapClicked(at: Point)
    | QueryEdited(endpoint: Endpoint, text: string)
    | SuggestionsArrived(endpoint: Endpoint, suggestions: seq<Suggestion>)
    | SuggestionsFailed(endpoint: Endpoint)
    | SuggestionPicked(endpoint: Endpoint, suggestion: Suggestion)
    | AddressArrived(endpoint: Endpoint, displayName: string)
    | AddressFailed(endpoint: Endpoint)
    | AvoidTollsSet(checked: bool)
    | OptimizeFuelSet(checked: bool)
    | SubmitPressed
    | RouteArrived(reply: RouteReply)
    | RouteFailed(response: Option<ErrorResponse>)
    | ResetPressed
    | TogglePressed

  datatype Transition = Transition(next: State, request: Option<Request>)

  // Per-endpoint access to the state.

  function Coord(s: State, e: Endpoint): Option<Point> {
    if e == Start then s.startCoord else s.goalCoord
  }

  function Query(s: State, e: Endpoint): string {
    if e == Start then s.startQuery else s.goalQuery
  }

  function Suggestions(s: State, e: Endpoint): seq<Suggestion> {
    if e == Start then s.startSuggestions else s.goalSuggestions
  }

  function WithCoord(s: State, e: Endpoint, c: Option<Point>): State {
    if e == Start then s.(startCoord := c) else s.(goalCoord := c)
  }

  function WithQuery(s: State, e: Endpoint, q: string): State {
    if e == Start then s.(startQuery := q) else s.(goalQuery := q)
  }

  function WithSuggestions(s: State, e: Endpoint, l: seq<Suggestion>): State {
    if e == Start then s.(startSuggestions := l) else s.(goalSuggestions := l)
  }

  // Frames: which groups of fields a transition leaves alone.

  /** Coordinate, query text and suggestion list of endpoint `e` agree. */
  predicate EndpointUnchanged(s: State, s': State, e: Endpoint) {
    Coord(s', e) == Coord(s, e) && Query(s', e) == Query(s, e) && Suggestions(s', e) == Suggestions(s, e)
  }

  /** The route data and the view flag agree. */
  predicate RoutesUnchanged(s: State, s': State) {
    s'.mainRoute == s.mainRoute && s'.secondaryRoutes == s.secondaryRoutes
    && s'.routeDetails == s.routeDetails && s'.showSecondaryRoutes == s.showSecondaryRoutes
  }

  predicate OptionsUnchanged(s: State, s': State) {
    s'.avoidTolls == s.avoidTolls && s'.optimizeFuel == s.optimizeFuel
  }

  /** The invariant the route data keeps: no secondary route repeats the main
      route, the details object mirrors the route fields, and without details
      there are no routes at all. */
  predicate RoutesConsistent(s: State) {
    && (forall i :: 0 <= i < |s.secondaryRoutes| ==> !RoutesEqual(s.mainRoute, s.secondaryRoutes[i].route))
    && (s.routeDetails.Some? ==>
          s.routeDetails.value.main.route == s.mainRoute
          && s.routeDetails.value.secondary == s.secondaryRoutes)
    && (s.routeDetails.None? ==> s.mainRoute == [] && s.secondaryRoutes == [])
  }

  /** The error text the form renders: the error when it is set and is not
      the empty string, which the page treats as no error. */
  function DisplayedError(s: State): (shown: Option<string>)
    ensures shown.Some? ==> s.error == shown && shown.value != ""
    ensures shown.None? <==> s.error.None? || s.error.value == ""
  {
    if s.error.Some? && s.error.value != "" then s.error else None
  }

  /** An error message is rendered. */
  predicate ErrorShown(s: State) {
    DisplayedError(s).Some?
  }

  /** The view toggle button and its label, offered only while a main route
      is loaded. */
  function ToggleButton(s: State): (button: Option<string>)
    ensures button.Some? <==> |s.mainRoute| > 0
    ensures button.Some? ==> (button.value == ShowMainLabel <==> s.showSecondaryRoutes)
    ensures button.Some? && !s.showSecondaryRoutes ==> button.value == ShowSecondaryLabel
  {
    if |s.mainRoute| > 0 then
      Some(if s.showSecondaryRoutes then ShowMainLabel else ShowSecondaryLabel)
    else None
  }

  /** The props handed to the map view. */
  function Props(s: State): (p: MapView.MapProps)
    ensures p.startCoord == s.startCoord && p.goalCoord == s.goalCoord
    ensures p.mainRoute == s.mainRoute && p.secondaryRoutes == s.secondaryRoutes
    ensures p.routeDetails == s.routeDetails && p.showSecondaryRoutes == s.showSecondaryRoutes
  {
    MapView.MapProps(s.startCoord, s.goalCoord, s.mainRoute, s.secondaryRoutes,
                     s.routeDetails, s.showSecondaryRoutes)
  }

  // Transitions.

  /** A map click sets the first unset endpoint, start before goal, and asks
      for that point's address; once both are set a click does nothing. */
  function Click(s: State, at: Point): (t: Transition)
    ensures s.startCoord.Some? ==> t.next.startCoord == s.startCoord
    ensures s.goalCoord.Some? ==> t.next.goalCoord == s.goalCoord
    ensures s.startCoord.None? ==>
              t.next.startCoord == Some(at) && t.next.goalCoord == s.goalCoord
              && t.request == Some(ReverseLookup(Start, at))
    ensures s.startCoord.Some? && s.goalCoord.None? ==>
              t.next.goalCoord == Some(at) && t.request == Some(ReverseLookup(Goal, at))
    ensures t.next == s <==> s.startCoord.Some? && s.goalCoord.Some?
    ensures t.request.None? <==> s.startCoord.Some? && s.goalCoord.Some?
    ensures t.next.(startCoord := s.startCoord, goalCoord := s.goalCoord) == s
  {
    match MapView.ClickTarget(s.startCoord, s.goalCoord)
    case None => Transition(s, None)
    case Some(e) => Transition(WithCoord(s, e, Some(at)), Some(ReverseLookup(e, at)))
  }

  /** Typing into an endpoint's box always updates its query; short text
      empties that endpoint's suggestions, longer text issues a search and
      keeps the current suggestions until the reply. */
  function EditQuery(s: State, e: Endpoint, text: string): (t: Transition)
    ensures Query(t.next, e) == text
    ensures Utf16.Length(text) <= SearchGate ==> Suggestions(t.next, e) == [] && t.request.None?
    ensures Utf16.Length(text) > SearchGate ==>
              Suggestions(t.next, e) == Suggestions(s, e) && t.request == Some(Search(e, text))
    ensures Coord(t.next, e) == Coord(s, e)
    ensures EndpointUnchanged(s, t.next, e.Other())
    ensures RoutesUnchanged(s, t.next) && OptionsUnchanged(s, t.next) && t.next.error == s.error
  {
    var typed := WithQuery(s, e, text);
    if Utf16.Length(text) > SearchGate then Transition(typed, Some(Search(e, text)))
    else Transition(WithSuggestions(typed, e, []), None)
  }

  /** A forward-geocoding reply replaces that endpoint's list wholesale. */
  function AcceptSuggestions(s: State, e: Endpoint, l: seq<Suggestion>): (t: Transition)
    ensures Suggestions(t.next, e) == l
    ensures Coord(t.next, e) == Coord(s, e) && Query(t.next, e) == Query(s, e)
    ensures EndpointUnchanged(s, t.next, e.Other())
    ensures RoutesUnchanged(s, t.next) && OptionsUnchanged(s, t.next) && t.next.error == s.error
    ensures t.request.None?
  {
    Transition(WithSuggestions(s, e, l), None)
  }

  /** Picking a suggestion moves that endpoint to it, shows its label, and
      closes both suggestion lists; no reverse lookup is issued. */
  function PickSuggestion(s: State, e: Endpoint, sug: Suggestion): (t: Transition)
    ensures Coord(t.next, e) == Some(sug.at) && Query(t.next, e) == sug.displayName
    ensures t.next.startSuggestions == [] && t.next.goalSuggestions == []
    ensures Coord(t.next, e.Other()) == Coord(s, e.Other())
    ensures Query(t.next, e.Other()) == Query(s, e.Other())
    ensures RoutesUnchanged(s, t.next) && OptionsUnchanged(s, t.next) && t.next.error == s.error
    ensures t.request.None?
  {
    var moved := WithCoord(s, e, Some(sug.at));
    var closed := moved.(startSuggestions := [], goalSuggestions := []);
    Transition(WithQuery(closed, e, sug.displayName), None)
  }

  /** A reverse-geocoding reply sets only that endpoint's query text. */
  function AcceptAddress(s: State, e: Endpoint, name: string): (t: Transition)
    ensures Query(t.next, e) == name
    ensures Coord(t.next, e) == Coord(s, e) && Suggestions(t.next, e) == Suggestions(s, e)
    ensures EndpointUnchanged(s, t.next, e.Other())
    ensures RoutesUnchanged(s, t.next) && OptionsUnchanged(s, t.next) && t.next.error == s.error
    ensures t.request.None?
  {
    Transition(WithQuery(s, e, name), None)
  }

  /** Submitting without both endpoints only sets the validation message;
      with both it issues the route request with the current options and
      changes nothing until the reply. */
  function Submit(s: State): (t: Transition)
    ensures s.startCoord.None? || s.goalCoord.None? ==>
              t.request.None? && t.next.error == Some(ValidationMessage) && ErrorShown(t.next)
    ensures EndpointUnchanged(s, t.next, Start) && EndpointUnchanged(s, t.next, Goal)
    ensures RoutesUnchanged(s, t.next) && OptionsUnchanged(s, t.next)
    ensures s.startCoord.Some? && s.goalCoord.Some? ==>
              t.next == s
              && t.request == Some(RouteQuery(s.startCoord.value, s.goalCoord.value, s.avoidTolls, s.optimizeFuel))
  {
    if s.startCoord.None? || s.goalCoord.None? then
      Transition(s.(error := Some(ValidationMessage)), None)
    else
      Transition(s, Some(RouteQuery(s.startCoord.value, s.goalCoord.value, s.avoidTolls, s.optimizeFuel)))
  }

  /** A successful reply replaces all route data at once: the main route, the
      secondary routes minus those identical to it, and details built from the
      same filtered list; the error is cleared. */
  function AcceptRoute(s: State, reply: RouteReply): (t: Transition)
    ensures t.next.mainRoute == reply.mainRoute.route
    ensures t.next.secondaryRoutes == Dedupe(reply.mainRoute.route, reply.secondaryRoutes)
    ensures forall i :: 0 <= i < |t.next.secondaryRoutes| ==>
              !RoutesEqual(t.next.mainRoute, t.next.secondaryRoutes[i].route)
    ensures forall c :: c in reply.secondaryRoutes ==>
              (c in t.next.secondaryRoutes <==> !RoutesEqual(reply.mainRoute.route, c.route))
    ensures forall c :: c in t.next.secondaryRoutes ==> c in reply.secondaryRoutes
    ensures t.next.routeDetails == Some(RouteDetails(reply.mainRoute, t.next.secondaryRoutes))
    ensures t.next.error.None? && RoutesConsistent(t.next)
    ensures ToggleButton(t.next).Some? <==> |reply.mainRoute.route| > 0
    ensures EndpointUnchanged(s, t.next, Start) && EndpointUnchanged(s, t.next, Goal)
    ensures OptionsUnchanged(s, t.next) && t.next.showSecondaryRoutes == s.showSecondaryRoutes
    ensures t.request.None?
  {
    var main := reply.mainRoute.route;
    var kept := Dedupe(main, reply.secondaryRoutes);
    Transition(s.(mainRoute := main, secondaryRoutes := kept,
                  routeDetails := Some(RouteDetails(reply.mainRoute, kept)), error := None), None)
  }

  /** A failed request empties all route data. The error becomes the server's
      `error` field when the server answered, even when that field is
      missing, and the connectivity message otherwise. */
  function RejectRoute(s: State, response: Option<ErrorResponse>): (t: Transition)
    ensures t.next.mainRoute == [] && t.next.secondaryRoutes == [] && t.next.routeDetails.None?
    ensures response.None? ==> t.next.error == Some(ConnectivityMessage)
    ensures response.Some? ==> t.next.error == response.value.error
    ensures ErrorShown(t.next) <==>
              response.None? || (response.value.error.Some? && response.value.error.value != "")
    ensures RoutesConsistent(t.next) && ToggleButton(t.next).None?
    ensures EndpointUnchanged(s, t.next, Start) && EndpointUnchanged(s, t.next, Goal)
    ensures OptionsUnchanged(s, t.next) && t.next.showSecondaryRoutes == s.showSecondaryRoutes
    ensures t.request.None?
  {
    var message := if response.Some? then response.value.error else Some(ConnectivityMessage);
    Transition(s.(mainRoute := [], secondaryRoutes := [], routeDetails := None, error := message), None)
  }

  /** Reset puts every field back to its initial value. */
  function Reset(s: State): (t: Transition)
    ensures t.next.startCoord.None? && t.next.goalCoord.None?
    ensures t.next.startQuery == "" && t.next.goalQuery == ""
    ensures t.next.startSuggestions == [] && t.next.goalSuggestions == []
    ensures t.next.mainRoute == [] && t.next.secondaryRoutes == [] && t.next.routeDetails.None?
    ensures t.next.error.None? && !t.next.avoidTolls && !t.next.optimizeFuel
    ensures !t.next.showSecondaryRoutes
    ensures t.request.None?
  {
    Transition(Init, None)
  }

  /** The view toggle flips the view flag and nothing else. */
  function Toggle(s: State): (t: Transition)
    ensures t.next.showSecondaryRoutes != s.showSecondaryRoutes
    ensures t.next.(showSecondaryRoutes := s.showSecondaryRoutes) == s
    ensures t.request.None?
  {
    Transition(s.(showSecondaryRoutes := !s.showSecondaryRoutes), None)
  }

  /** The toll checkbox sets its option and nothing else. */
  function SetAvoidTolls(s: State, checked: bool): (t: Transition)
    ensures t.next.avoidTolls == checked && t.next.optimizeFuel == s.optimizeFuel
    ensures t.next.(avoidTolls := s.avoidTolls) == s
    ensures t.request.None?
  {
    Transition(s.(avoidTolls := checked), None)
  }

  /** The fuel checkbox sets its option and nothing else. */
  function SetOptimizeFuel(s: State, checked: bool): (t: Transition)
    ensures t.next.optimizeFuel == checked && t.next.avoidTolls == s.avoidTolls
    ensures t.next.(optimizeFuel := s.optimizeFuel) == s
    ensures t.request.None?
  {
    Transition(s.(optimizeFuel := checked), None)
  }

  /** Events whose handlers only enrich the selection; none of them may touch
      the route data, the view flag or the error. */
  predicate IsSelectionEvent(e: Event) {
    e.MapClicked? || e.QueryEdited? || e.SuggestionsArrived? || e.SuggestionsFailed?
    || e.SuggestionPicked? || e.AddressArrived? || e.AddressFailed?
  }

  /** One transition of the component. */
  function Step(s: State, e: Event): (t: Transition)
    ensures RoutesConsistent(s) ==> RoutesConsistent(t.next)
    ensures e.SuggestionsFailed? || e.AddressFailed? ==> t == Transition(s, None)
    ensures IsSelectionEvent(e) ==>
              RoutesUnchanged(s, t.next) && OptionsUnchanged(s, t.next) && t.next.error == s.error
    ensures t.request.Some? && t.request.value.RouteQuery? ==>
              e.SubmitPressed? && s.startCoord.Some? && s.goalCoord.Some?
    ensures e.AvoidTollsSet? || e.OptimizeFuelSet? ==>
              RoutesUnchanged(s, t.next) && EndpointUnchanged(s, t.next, Start)
              && EndpointUnchanged(s, t.next, Goal) && t.next.error == s.error && t.request.None?
  {
    match e
    case MapClicked(at) => Click(s, at)
    case QueryEdited(ep, text) => EditQuery(s, ep, text)
    case SuggestionsArrived(ep, l) => AcceptSuggestions(s, ep, l)
    case SuggestionsFailed(_) => Transition(s, None)
    case SuggestionPicked(ep, sug) => PickSuggestion(s, ep, sug)
    case AddressArrived(ep, name) => AcceptAddress(s, ep, name)
    case AddressFailed(_) => Transition(s, None)
    case AvoidTollsSet(checked) => SetAvoidTolls(s, checked)
    case OptimizeFuelSet(checked) => SetOptimizeFuel(s, checked)
    case SubmitPressed => Submit(s)
    case RouteArrived(reply) => AcceptRoute(s, reply)
    case RouteFailed(response) => RejectRoute(s, response)
    case ResetPressed => Reset(s)
    case TogglePressed => Toggle(s)
  }

  /** The state after a sequence of events. */
  function Run(s: State, events: seq<Event>): (r: State)
    ensures RoutesConsistent(s) ==> RoutesConsistent(r)
    decreases |events|
  {
    if |events| == 0 then s else Run(Step(s, events[0]).next, events[1..])
  }

  /** Events the rendered page can deliver in state `s`: the toggle button
      exists only while a main route is loaded, only a listed suggestion can
      be picked, and a controlled checkbox only ever reports the opposite of
      its current flag. Network replies and the other controls are always
      possible. */
  predicate Enabled(s: State, e: Event)
    ensures e.TogglePressed? ==> (Enabled(s, e) <==> |s.mainRoute| > 0)
    ensures e.SuggestionPicked? ==> (Enabled(s, e) <==> e.suggestion in Suggestions(s, e.endpoint))
    ensures e.AvoidTollsSet? ==> (Enabled(s, e) <==> e.checked != s.avoidTolls)
    ensures e.OptimizeFuelSet? ==> (Enabled(s, e) <==> e.checked != s.optimizeFuel)
    ensures (!e.TogglePressed? && !e.SuggestionPicked? && !e.AvoidTollsSet? && !e.OptimizeFuelSet?)
            ==> Enabled(s, e)
  {
    match e
    case TogglePressed => ToggleButton(s).Some?
    case SuggestionPicked(ep, sug) => sug in Suggestions(s, ep)
    case AvoidTollsSet(checked) => checked != s.avoidTolls
    case OptimizeFuelSet(checked) => checked != s.optimizeFuel
    case _ => true
  }

  function Clicks(points: seq<Point>): (events: seq<Event>)
    ensures |events| == |points|
    ensures forall i :: 0 <= i < |events| ==> events[i] == MapClicked(points[i])
  {
    seq(|points|, i requires 0 <= i < |points| => MapClicked(points[i]))
  }

  // Properties relating several transitions.

  lemma {:induction false} RunAppend(s: State, a: seq<Event>, b: seq<Event>)
    ensures Run(s, a + b) == Run(Run(s, a), b)
    decreases |a|
  {
    if |a| == 0 {
      assert a + b == b;
    } else {
      assert (a + b)[0] == a[0];
      assert (a + b)[1..] == a[1..] + b;
      RunAppend(Step(s, a[0]).next, a[1..], b);
    }
  }

  /** Every state the component can reach satisfies the route invariant. */
  lemma ReachableStatesAreConsistent(events: seq<Event>)
    ensures RoutesConsistent(Run(Init, events))
  {
  }

  /** Reset returns to the initial state from anywhere, so it is idempotent. */
  lemma ResetRestoresInit(s: State)
    ensures Step(s, ResetPressed).next == Init
    ensures Step(Step(s, ResetPressed).next, ResetPressed) == Step(s, ResetPressed)
    ensures MapView.ClickTarget(Init.startCoord, Init.goalCoord) == Some(Start)
  {
  }

  /** Toggling twice is the identity. */
  lemma ToggleIsInvolution(s: State)
    ensures Step(Step(s, TogglePressed).next, TogglePressed).next == s
  {
  }

  /** Once both endpoints are set, any number of clicks changes nothing. */
  lemma {:induction false} ClicksOnCompletePair(s: State, points: seq<Point>)
    requires s.startCoord.Some? && s.goalCoord.Some?
    ensures Run(s, Clicks(points)) == s
    decreases |points|
  {
    if |points| > 0 {
      assert Clicks(points)[1..] == Clicks(points[1..]);
      ClicksOnCompletePair(s, points[1..]);
    }
  }

  /** After a reset, clicks set the start to the first clicked point and the
      goal to the second; later clicks are ignored. */
  lemma ClicksAfterReset(s: State, points: seq<Point>)
    requires |points| >= 2
    ensures Run(s, [ResetPressed] + Clicks(points)).startCoord == Some(points[0])
    ensures Run(s, [ResetPressed] + Clicks(points)).goalCoord == Some(points[1])
  {
    var first := [ResetPressed, MapClicked(points[0]), MapClicked(points[1])];
    assert [ResetPressed] + Clicks(points) == first + Clicks(points[2..]);
    RunAppend(s, first, Clicks(points[2..]));
    var s1 := Step(s, ResetPressed).next;
    var s2 := Step(s1, MapClicked(points[0])).next;
    var s3 := Step(s2, MapClicked(points[1])).next;
    assert Run(s, first) == s3 by {
      var rest := [MapClicked(points[0]), MapClicked(points[1])];
      assert first[1..] == rest;
      assert rest[1..] == [MapClicked(points[1])];
      assert Run(s2, [MapClicked(points[1])]) == Run(s3, []);
      assert Run(s1, rest) == Run(s2, rest[1..]);
      assert Run(s, first) == Run(s1, first[1..]);
    }
    ClicksOnCompletePair(s3, points[2..]);
  }

  /** After a pick both lists are closed, so no further pick is possible
      until new suggestions arrive. */
  lemma NoPickAfterPick(s: State, e: Endpoint, sug: Suggestion, e': Endpoint, sug': Suggestion)
    ensures !Enabled(Step(s, SuggestionPicked(e, sug)).next, SuggestionPicked(e', sug'))
  {
  }

  /** No secondary polyline the map draws coincides with the main route. */
  lemma DrawnSecondariesDifferFromMain(s: State)
    requires RoutesConsistent(s)
    ensures forall i :: 0 <= i < |MapView.SecondaryPolylines(Props(s))| ==>
              !RoutesEqual(s.mainRoute, MapView.SecondaryPolylines(Props(s))[i].positions)
  {
  }

  /** The `center` prop the map view computes is the reply's first point
      after a successful request, and the default centre after a failure or
      a reset. */
  lemma CenterFollowsRouteState(s: State, reply: RouteReply, response: Option<ErrorResponse>)
    ensures |reply.mainRoute.route| > 0 ==>
              MapView.Center(Step(s, RouteArrived(reply)).next.mainRoute) == reply.mainRoute.route[0]
    ensures MapView.Center(Step(s, RouteFailed(response)).next.mainRoute) == MapView.DefaultCenter
    ensures MapView.Center(Step(s, ResetPressed).next.mainRoute) == MapView.DefaultCenter
  {
  }
}

=== FILE: routes.dfy ===
/** Exact route equality and the filter that drops secondary routes identical
    to the main route. */
module Routes {
  import opened Geo

  /** The comparison made at one index: equal first and equal second components. */
  predicate SamePoint(p: Point, q: Point) {
    p.0 == q.0 && p.1 == q.1
  }

  /** The element-wise comparison loop from index `i` on, leaving at the first
      index where the points differ. */
  function RoutesEqualFrom(r1: Route, r2: Route, i: nat): (equal: bool)
    requires |r1| == |r2| && i <= |r1|
    ensures equal <==> forall k :: i <= k < |r1| ==> SamePoint(r1[k], r2[k])
    decreases |r1| - i
  {
    if i == |r1| then true
    else if !SamePoint(r1[i], r2[i]) then false
    else RoutesEqualFrom(r1, r2, i + 1)
  }

  /** Exact route equality: a length check, then the element-wise comparison. */
  function RoutesEqual(r1: Route, r2: Route): (equal: bool)
    ensures |r1| != |r2| ==> !equal
    ensures equal <==> |r1| == |r2| && forall k :: 0 <= k < |r1| ==> SamePoint(r1[k], r2[k])
  {
    if |r1| != |r2| then false else RoutesEqualFrom(r1, r2, 0)
  }

  /** Route equality is exactly equality of the point sequences, so it is an
      equivalence relation: no tolerance is applied anywhere. */
  lemma RoutesEqualIsIdentity(r1: Route, r2: Route)
    ensures RoutesEqual(r1, r2) <==> r1 == r2
    ensures RoutesEqual(r1, r1)
    ensures RoutesEqual(r1, r2) <==> RoutesEqual(r2, r1)
  {
    if RoutesEqual(r1, r2) {
      assert forall k :: 0 <= k < |r1| ==> r1[k] == r2[k] by {
        forall k | 0 <= k < |r1|
          ensures r1[k] == r2[k]
        {
          assert SamePoint(r1[k], r2[k]);
        }
      }
    }
  }

  /** The secondary routes whose geometry differs from `main`, in their
      original order. */
  function Dedupe(main: Route, candidates: seq<RouteResult>): (kept: seq<RouteResult>)
    ensures |kept| <= |candidates|
    ensures forall i :: 0 <= i < |kept| ==> !RoutesEqual(main, kept[i].route)
    ensures forall c :: c in kept ==> c in candidates
    ensures forall c :: c in candidates && !RoutesEqual(main, c.route) ==> c in kept
  {
    if |candidates| == 0 then []
    else if RoutesEqual(main, candidates[0].route) then Dedupe(main, candidates[1..])
    else [candidates[0]] + Dedupe(main, candidates[1..])
  }

  /** The filter works one candidate at a time and keeps the survivors in
      order: filtering a concatenation concatenates the filtered parts. */
  lemma {:induction false} DedupeDistributes(main: Route, a: seq<RouteResult>, b: seq<RouteResult>)
    ensures Dedupe(main, a + b) == Dedupe(main, a) + Dedupe(main, b)
    decreases |a|
  {
    if |a| == 0 {
      assert a + b == b;
    } else {
      assert (a + b)[0] == a[0];
      assert (a + b)[1..] == a[1..] + b;
      DedupeDistributes(main, a[1..], b);
    }
  }

  /** A single candidate is kept exactly when its geometry differs from `main`. */
  lemma DedupeSingle(main: Route, c: RouteResult)
    ensures Dedupe(main, [c]) == (if RoutesEqual(main, c.route) then [] else [c])
  {
    assert [c][1..] == [];
  }

  /** Each occurrence of a candidate that differs from `main` survives, and
      every occurrence of one equal to `main` is dropped. */
  lemma {:induction false} DedupeCounts(main: Route, candidates: seq<RouteResult>, x: RouteResult)
    ensures multiset(Dedupe(main, candidates))[x]
         == (if RoutesEqual(main, x.route) then 0 else multiset(candidates)[x])
    decreases |candidates|
  {
    if |candidates| > 0 {
      DedupeCounts(main, candidates[1..], x);
      assert candidates == [candidates[0]] + candidates[1..];
      assert multiset(candidates) == multiset([candidates[0]]) + multiset(candidates[1..]);
    }
  }

  /** A list with no route equal to `main` passes through unchanged. */
  lemma {:induction false} DedupeKeepsDistinct(main: Route, candidates: seq<RouteResult>)
    requires forall i :: 0 <= i < |candidates| ==> !RoutesEqual(main, candidates[i].route)
    ensures Dedupe(main, candidates) == candidates
    decreases |candidates|
  {
    if |candidates| > 0 {
      DedupeKeepsDistinct(main, candidates[1..]);
      assert [candidates[0]] + candidates[1..] == candidates;
    }
  }

  /** Filtering is idempotent. */
  lemma DedupeIdempotent(main: Route, candidates: seq<RouteResult>)
    ensures Dedupe(main, Dedupe(main, candidates)) == Dedupe(main, candidates)
  {
    DedupeKeepsDistinct(main, Dedupe(main, candidates));
  }
}

=== FILE: scenarios.dfy ===
/** Worked examples of the route finder on concrete inputs. */
module Scenarios {
  import opened Geo
  import opened Routes
  import opened RouteFinder
  import Utf16
  import MapView

  /** Filtering one candidate keeps it exactly when its geometry differs from
      the main route; an empty candidate list stays empty. */
  lemma DedupeSmallCases(a: Route, b: Route, sa: RouteStats, sb: RouteStats)
    requires a != b
    ensures Dedupe(a, [RouteResult(b, sb)]) == [RouteResult(b, sb)]
    ensures Dedupe(a, [RouteResult(a, sa)]) == []
    ensures Dedupe(a, []) == []
  {
    RoutesEqualIsIdentity(a, b);
    RoutesEqualIsIdentity(a, a);
    DedupeSingle(a, RouteResult(b, sb));
    DedupeSingle(a, RouteResult(a, sa));
  }

  /** Submitting with only the start set issues no request and shows the
      validation message. */
  lemma SubmitWithoutGoal(s: State)
    requires s.startCoord.Some? && s.goalCoord.None?
    ensures Step(s, SubmitPressed).request.None?
    ensures Step(s, SubmitPressed).next.error == Some(ValidationMessage)
  {
  }

  /** A two-character query empties that endpoint's suggestions whatever they
      were, and searches nothing. */
  lemma TwoCharacterQuery(s: State, e: Endpoint, c1: char, c2: char)
    requires c1 as int < 0x1_0000 && c2 as int < 0x1_0000
    ensures Suggestions(Step(s, QueryEdited(e, [c1, c2])).next, e) == []
    ensures Step(s, QueryEdited(e, [c1, c2])).request.None?
  {
    Utf16.LengthOfBmpText([c1, c2]);
  }

  /** Two characters outside the Basic Multilingual Plane have JavaScript
      length four, so they pass the gate and are searched. */
  lemma TwoAstralCharacterQuery(s: State, e: Endpoint, c1: char, c2: char)
    requires c1 as int >= 0x1_0000 && c2 as int >= 0x1_0000
    ensures Utf16.Length([c1, c2]) == 4
    ensures Step(s, QueryEdited(e, [c1, c2])).request == Some(Search(e, [c1, c2]))
  {
    Utf16.LengthAdds([c1], [c2], c1);
    Utf16.LengthAdds([], [c2], c2);
    assert [c1] + [c2] == [c1, c2];
  }

  /** Both endpoints picked on the map, a reply whose first alternative
      repeats the main route: one secondary route survives and the main route
      is what the map draws. */
  lemma EndToEndRoute(stats: RouteStats, stats1: RouteStats, stats2: RouteStats)
    ensures
      var start := (19.43, -99.13);
      var goal := (19.50, -99.20);
      var main := [(19.43, -99.13), (19.46, -99.17), (19.50, -99.20)];
      var other := [(19.43, -99.13), (19.48, -99.15), (19.50, -99.20)];
      var reply := RouteReply(RouteResult(main, stats),
                              [RouteResult(main, stats1), RouteResult(other, stats2)]);
      var picked := Run(Init, [MapClicked(start), MapClicked(goal)]);
      var done := Step(picked, RouteArrived(reply)).next;
      && Step(picked, SubmitPressed).request == Some(RouteQuery(start, goal, false, false))
      && done.secondaryRoutes == [RouteResult(other, stats2)]
      && !done.showSecondaryRoutes
      && MapView.MainPolyline(Props(done)) == Some(MapView.Polyline(main, MapView.MainRouteColor))
      && MapView.SecondaryPolylines(Props(done)) == []
  {
    var start := (19.43, -99.13);
    var goal := (19.50, -99.20);
    var main := [(19.43, -99.13), (19.46, -99.17), (19.50, -99.20)];
    var other := [(19.43, -99.13), (19.48, -99.15), (19.50, -99.20)];
    var s1 := Step(Init, MapClicked(start)).next;
    var s2 := Step(s1, MapClicked(goal)).next;
    assert Run(Init, [MapClicked(start), MapClicked(goal)]) == s2 by {
      assert [MapClicked(start), MapClicked(goal)][1..] == [MapClicked(goal)];
      assert Run(s1, [MapClicked(goal)]) == Run(s2, []);
    }
    RoutesEqualIsIdentity(main, main);
    RoutesEqualIsIdentity(main, other);
    assert main[1] != other[1];
    var cands := [RouteResult(main, stats1), RouteResult(other, stats2)];
    assert cands[1..] == [RouteResult(other, stats2)];
    DedupeSingle(main, RouteResult(other, stats2));
    assert Dedupe(main, cands) == [RouteResult(other, stats2)];
    var reply := RouteReply(RouteResult(main, stats), cands);
    assert Step(s2, RouteArrived(reply)) == AcceptRoute(s2, reply);
  }

  /** A rejection carrying a server message shows exactly that message and
      leaves no route data behind. */
  lemma ServerErrorShown(s: State)
    ensures
      var t := Step(s, RouteFailed(Some(ErrorResponse(Some("No se encontró una ruta")))));
      && t.next.error == Some("No se encontró una ruta")
      && ErrorShown(t.next)
      && t.next.mainRoute == [] && t.next.secondaryRoutes == [] && t.next.routeDetails.None?
  {
  }
}

=== FILE: utf16.dfy ===
/** The length a JavaScript string reports: UTF-16 code units, where a
    character outside the Basic Multilingual Plane takes two units. */
module Utf16 {

  /** Number of UTF-16 code units that encode `c`. */
  function CodeUnits(c: char): nat {
    if c as int >= 0x1_0000 then 2 else 1
  }

  /** The `length` of the JavaScript string holding `s`. */
  function Length(s: string): (n: nat)
    ensures |s| <= n <= 2 * |s|
    ensures |s| == 0 <==> n == 0
  {
    if |s| == 0 then 0 else CodeUnits(s[0]) + Length(s[1..])
  }

  /** The length adds up character by character: one unit for a Basic
      Multilingual Plane character, two for any other. */
  lemma {:induction false} LengthAdds(a: string, b: string, c: char)
    ensures Length(a + b) == Length(a) + Length(b)
    ensures Length([c]) == CodeUnits(c)
    ensures Length([c]) == 2 <==> c as int >= 0x1_0000
    decreases |a|
  {
    assert [c][1..] == [];
    if |a| == 0 {
      assert a + b == b;
    } else {
      assert (a + b)[0] == a[0];
      assert (a + b)[1..] == a[1..] + b;
      LengthAdds(a[1..], b, c);
    }
  }

  /** For text made only of Basic Multilingual Plane characters the JavaScript
      length is the number of characters. */
  lemma {:induction false} LengthOfBmpText(s: string)
    requires forall i :: 0 <= i < |s| ==> s[i] as int < 0x1_0000
    ensures Length(s) == |s|
    decreases |s|
  {
    if |s| > 0 {
      LengthOfBmpText(s[1..]);
    }
  }
}
